=== FILE: README.md ===
# Portfolio backtest engine: a Dafny model

This project models the computational core of a portfolio backtesting tool:

- **Rebalance scheduler** (`get_rebalancing_dates`). Given a trading calendar and a
  rebalancing period (`never`, `annually`, `quarterly`, `monthly`, anything else),
  it picks the first trading day of each year, quarter or month and drops the very
  first one.
- **Share simulator** (`run_simulation`). Buys shares at the target weights on the
  first day, marks the portfolio to market every day, and re-buys the targets on
  each rebalancing day. Every purchase divides by `price + EPSILON`.
- **Metrics calculator** (`calculate_metrics`). CAGR, maximum drawdown,
  annualised volatility, Sharpe and Sortino ratios, and beta/alpha against an
  optional benchmark. This includes its two guard branches and the early exit
  for fewer than two daily returns.
- **Shard partitioning** (the ticker-list slicing in `download_prices.py`). Reads
  ticker lines, strips them and drops blank ones, then takes slice
  `slice_index` of `total_slices` with a ceiling-sized stride.

Modules: `Wrappers` (Option), `Calendar` (dates, order, quarter), `Scheduler`,
`Stats` (sums, means, sample covariance), `Calculations`, `Simulator` and
`Shards`.

Reals are exact. Fractional powers and square roots are not something Dafny can
compute, so they are passed in as a `Numerics` value. The only properties assumed
of them are that the square root of a non-negative number is non-negative and
that the square root of zero is zero. The contracts therefore state structure,
signs, gating and round trips, not numeric values.

Notes on the calculator:

- `pandas.DataFrame.cov()` is the **sample** covariance (divisor n - 1). Beta is
  gated on the sample variance of the benchmark returns exceeding `EPSILON`.
- The Sortino denominator is the square root of the mean of the squared *clipped*
  excess returns, taken over **all** returns. Gains count as zeros; the mean is
  not restricted to the losing days.
- Daily returns are plain `pct_change`. The code has no rule for skipping points
  whose previous value is near zero. The model instead requires (in
  `MetricsDefined`) that no value the code divides by is zero, and that neither
  the history nor a used benchmark ends with the opposite sign to its start,
  since the code would then raise a negative ratio to a fractional power.

## Model

| member | source | states |
|---|---|---|
| Calendar.Quarter | scripts/simulation.py:13 | for a valid month, the quarter lies in 1..4 and contains the month (months 3q-2 .. 3q) |
| Calendar.QuarterMonotone | scripts/simulation.py:13-14 | a later month never lies in an earlier quarter |
| Scheduler.ParsePeriod | scripts/simulation.py:6-18 | each of the four period names selects its own schedule, and every other name is Unrecognised |
| Scheduler.FirstDates | scripts/simulation.py:11-16 | keep-first de-duplication of the first n dates keeps at most n dates, keeps the first date first, and keeps only dates among those n |
| Scheduler.RebalancingDates | scripts/simulation.py:5-19 | `never` and unrecognised names give no dates; the first trading day is never a rebalancing day; every date returned is a trading day |
| Scheduler.FirstDatesFacts | scripts/simulation.py:11-16 | keep-first de-duplication keeps the first day, keeps a day exactly when it starts its bucket, and keeps only calendar days in a bucket other than the first day's |
| Scheduler.RebalanceCount | scripts/simulation.py:11-19 | one rebalancing date per bucket after the first, so a calendar that spans one year, quarter or month gives none |
| Scheduler.FirstDatesCount | scripts/simulation.py:11-16 | de-duplication keeps exactly one day per distinct bucket |
| Scheduler.BucketsAreIntervals | scripts/simulation.py:11-16 | a bucket is contiguous in time: a date between two dates of one bucket is in that bucket |
| Scheduler.FirstInBucketIffChange | scripts/simulation.py:11-16 | on an ascending calendar, a day begins its bucket exactly when its bucket differs from the previous day's |
| Scheduler.ChangeDates | scripts/simulation.py:11-19 | the bucket-change scan of the first n dates returns at most n - 1 dates, all from positions 1..n-1 |
| Scheduler.RebalancingDatesAreChanges | scripts/simulation.py:11-19 | on an ascending calendar, the rebalancing dates are exactly the days whose bucket differs from the previous day's |
| Scheduler.ChangeDatesMembers | scripts/simulation.py:11-19 | a day is among the bucket-change days exactly when it is past the first and its bucket changed |
| Scheduler.RebalanceDayIff | scripts/simulation.py:19-43 | on an ascending calendar, day i is a rebalancing day if and only if the period is recognised, i > 0, and the bucket changes at i |
| Scheduler.ScanRebalancingDates | scripts/simulation.py:5-19 | a single left-to-right scan returns no dates for `never`/unrecognised, and on an ascending calendar returns exactly the keep-first result minus its head |
| Stats.MeanOfSquaresNonNegative | scripts/calculations.py:42 | the mean of squares is non-negative |
| Stats.SumZero | scripts/calculations.py:42 | a series of zeros sums to zero |
| Stats.MeanOfSquaresZero | scripts/calculations.py:42 | the mean of the squares of a series of zeros is zero |
| Stats.SampleCovariance | scripts/calculations.py:54-56 | the sample covariance is symmetric in its two series and non-negative on the diagonal (the sample variance) |
| Calculations.Cagr | scripts/calculations.py:24-25 | growth is zero when the elapsed span is not positive |
| Calculations.DailyReturns | scripts/calculations.py:31 | n values give n - 1 percentage changes, and none for an empty series |
| Calculations.Compound | scripts/calculations.py:31 | the inverse of the percentage change: n returns compound a start value into n + 1 values, starting at the start value |
| Calculations.ReturnsRoundTrip | scripts/calculations.py:31 | compounding the first value by the daily returns rebuilds the whole series |
| Calculations.RunningPeak | scripts/calculations.py:27 | the running peak has one entry per value, and none below the first value |
| Calculations.RunningPeakFacts | scripts/calculations.py:27 | entry i of the running peak is one of the first i + 1 values, bounds all of them, and the peaks never decrease |
| Calculations.Drawdown | scripts/calculations.py:28 | a value at or below a non-negative peak has drawdown at most 0, exactly 0 at the peak, and above -1 when the value is non-negative |
| Calculations.Drawdowns | scripts/calculations.py:27-28 | one drawdown per value against that day's non-negative running peak; each is at most 0, exactly 0 where the value stands at its peak, and above -1 where the value is non-negative |
| Calculations.Minimum | scripts/calculations.py:29 | the minimum is an element and no element is smaller |
| Calculations.MaxDrawdown | scripts/calculations.py:29 | the maximum drawdown is one of the drawdowns and no drawdown is deeper; it is never above 0, and above -1 for non-negative values |
| Calculations.NonDecreasingIffAtPeak | scripts/calculations.py:27 | a series never falls if and only if every value equals its running peak |
| Calculations.MaxDrawdownZeroIff | scripts/calculations.py:27-29 | the maximum drawdown is zero if and only if the series never falls |
| Calculations.DownsideReturns | scripts/calculations.py:39-41 | each entry is the excess return when that is not positive and zero otherwise, so it never exceeds either |
| Calculations.AnnualVolatility | scripts/calculations.py:35 | annualised volatility is non-negative |
| Calculations.DownsideDeviation | scripts/calculations.py:42 | downside deviation is non-negative, and exactly zero when every clipped excess return is zero |
| Calculations.SharpeRatio | scripts/calculations.py:36-37 | the Sharpe ratio is positive (negative) exactly when the excess return is |
| Calculations.SortinoRatio | scripts/calculations.py:44-46 | the Sortino ratio is zero unless the downside deviation exceeds EPSILON, and otherwise has the sign of the excess return |
| Calculations.BenchmarkRelative | scripts/calculations.py:48-63 | beta and alpha are present together, exactly when a non-empty benchmark is given, there are at least two aligned returns and the benchmark variance exceeds EPSILON; then beta times variance equals covariance |
| Calculations.RiskMetrics | scripts/calculations.py:35-63 | with at least two returns: volatility non-negative, the Sharpe sign follows cagr - riskFree, Sortino can only agree with that sign and is 0 when no daily return falls below the daily risk-free rate, beta/alpha gated as above |
| Calculations.MeasuredMetrics | scripts/calculations.py:22-63 | past the guards, for a history that does not end below zero: mdd is the maximum drawdown, cagr is 0 for a non-positive span, and with exactly two values volatility, Sharpe and Sortino are 0 and beta is absent |
| Calculations.CalculateMetrics | scripts/calculations.py:10-70 | fewer than 2 points give all zeros; a start below EPSILON gives mdd -1 and zeros; otherwise the drawdown, growth, sign and beta/alpha gating properties above, with beta present if and only if there are more than two points and a usable benchmark |
| Calculations.SelfBenchmark | scripts/calculations.py:53-63 | a series measured against itself has beta exactly 1 and alpha exactly 0 whenever the benchmark variance passes the gate |
| Simulator.Fractions | scripts/simulation.py:23 | percent weights become fractions whose total is the weights' total divided by 100 |
| Simulator.Allocate | scripts/simulation.py:33-44 | each asset gets shares whose padded cost (shares x (price + EPSILON)) is exactly its target share of the value |
| Simulator.WorthSign | scripts/simulation.py:40 | the worth of a holding is non-negative for non-negative shares and prices, and positive for positive ones |
| Simulator.ValueOn | scripts/simulation.py:34-41 | day 0 records the initial amount; each later day records the worth of the previous day's holdings, never negative when those holdings are not |
| Simulator.Holdings | scripts/simulation.py:33-44 | the shares held after each day form one holding per portfolio asset |
| Simulator.ValueHistory | scripts/simulation.py:28-41 | one recorded value per trading day |
| Simulator.RunSimulation | scripts/simulation.py:21-47 | no report exactly for an empty table or portfolio; otherwise the history has one value per day, starts at the initial amount, records day i at day i's prices with the shares held after day i - 1, and the metrics are those of that history |
| Simulator.HoldsBetweenRebalances | scripts/simulation.py:36-44 | shares do not change between two days when no rebalancing day falls in between |
| Simulator.NeverHoldsInitialShares | scripts/simulation.py:29-44 | with period `never` (or unrecognised) the initial shares are held throughout |
| Simulator.RebalanceHitsTargets | scripts/simulation.py:43-44 | on a rebalancing day each asset's padded cost equals its target fraction of that day's value |
| Simulator.AllocateMeetsWeights | scripts/simulation.py:43-44 | shares bought for a value put exactly weight / 100 of it, at the padded price, into each asset |
| Simulator.PaddedCostBound | scripts/simulation.py:33-44 | buying at price + EPSILON never spends more than the allotted cost at the real price |
| Simulator.AllocateNonNegative | scripts/simulation.py:33-44 | a non-negative value and fractions buy a non-negative number of shares of every asset |
| Simulator.AllocatePositive | scripts/simulation.py:33-44 | a positive value and fractions at positive prices buy a positive number of shares of every asset |
| Simulator.AllocationWorthBound | scripts/simulation.py:33-44 | the freshly bought holdings are worth at most the value times the total fraction |
| Simulator.AllocationNeverExceedsValue | scripts/simulation.py:33-44 | with weights summing to 100, the holdings bought on day 0 or a rebalancing day are worth no more than the value they were bought with |
| Simulator.ValuesNonNegative | scripts/simulation.py:33-44 | with a non-negative amount and weights, holdings and recorded values are never negative |
| Simulator.ValuesPositive | scripts/simulation.py:33-44 | with positive amount, weights and prices, holdings and values stay positive |
| Simulator.PositiveRunIsMeasurable | scripts/simulation.py:47 | a positive run (positive amount, weights and prices, and a positive or empty benchmark) always meets the calculator's precondition: every value is positive, so none is zero and the last is not negative, and the benchmark's end/start ratio is positive |
| Shards.StripLeading | scripts/download_prices.py:34 | drops exactly the leading Python whitespace |
| Shards.StripTrailing | scripts/download_prices.py:34 | drops exactly the trailing Python whitespace |
| Shards.Strip | scripts/download_prices.py:34 | the result has no surrounding whitespace, is the input with only whitespace removed around it, and is empty exactly for an all-whitespace line |
| Shards.LineTickers | scripts/download_prices.py:34 | a blank line contributes nothing, any other line its stripped text |
| Shards.KeptTickers | scripts/download_prices.py:34 | filtering keeps at most one ticker per line |
| Shards.KeptTickersAreStripped | scripts/download_prices.py:34 | every kept ticker is non-empty and stripped |
| Shards.KeptTickersFileOrder | scripts/download_prices.py:34 | tickers appear in file order: the list for a concatenation of lines is the concatenation of the lists |
| Shards.FloorDiv | scripts/download_prices.py:41 | Python floor division: the quotient rounds toward minus infinity for either sign of divisor |
| Shards.SliceSize | scripts/download_prices.py:41 | for a positive slice count the stride is the ceiling of n / total_slices: non-negative, stride x total >= n, (stride - 1) x total < n |
| Shards.SliceBound | scripts/download_prices.py:44 | Python slice-bound normalisation: in-range bounds are kept, bounds above n clamp to n, negative bounds count from the end (i + n) and clamp at 0 |
| Shards.Shard | scripts/download_prices.py:42-44 | for k >= 0, slice k is the contiguous run min(k x stride, n)..min(k x stride + stride, n) of the list, at most one stride long, and empty exactly when k x stride reaches n |
| Shards.ShardsDisjoint | scripts/download_prices.py:40-44 | an earlier slice ends before a later one starts |
| Shards.ShardsPrefix | scripts/download_prices.py:40-44 | slices 0..m-1 together are exactly the list's prefix up to slice m's start |
| Shards.ShardsCover | scripts/download_prices.py:40-44 | slices 0..total_slices-1 together are the whole ticker list, in order, each ticker once |
| Shards.PlanShard | scripts/download_prices.py:34-48 | a zero slice count is a division error; otherwise a job downloads exactly its slice of the stripped ticker list and has nothing to do exactly when that slice is empty (for k >= 0: when k x stride reaches the ticker count); downloaded tickers are non-empty and stripped |

## Left out

- I/O is not modelled. This covers reading `tickers.txt` (the lines arrive as a parameter), the missing-file exit, printing, downloading prices, the thread pool, command-line parsing and `update_data.py`.
- The benchmark series passed to the calculator is an input. The code that produces it (a second simulation run by the caller) is outside this core.
- Dates enter only through year, month and day. `elapsedDays` (the pandas day difference between first and last index) is a parameter, and `years` is `elapsedDays / 365.25` as in the code. `RunSimulation` requires it to be positive when there are two or more dates, as it is for strictly increasing dates.
- The inner join of portfolio and benchmark returns is modelled as a benchmark covering the same dates: a used benchmark must be as long as the portfolio history.
- The report's `name` field and the `strftime` formatting of dates in the history are passthrough and are not modelled. So are `dropna` on a history that has no missing values, and selecting the portfolio's columns from the price table.
- A one-element weight list is broadcast to every ticker (the whole weight goes to each), and any other length mismatch raises. The model requires one weight per ticker (`Admissible`), together with non-negative prices, and leaves the broadcast out.
- A price table whose index repeats a date makes `df_prices.loc[date]` return several rows and the history assignment overwrite them all. `Admissible` requires strictly increasing dates, as a price table's sorted date index has, so the rebalance lemmas of the scheduler apply to the simulator directly.
- Calculations.CalculateMetrics: the NaN/infinity sanitising of Sharpe, Sortino, beta and alpha (calculations.py:65-68) is not modelled, because the reals are exact. `MetricsDefined` instead rules out the inputs that would create those values: a zero divisor before the last day, a history whose last value is negative, and a used benchmark whose end/start ratio is negative. With such an end the code's `**` (calculations.py:25 and 61) yields NaN. A NaN portfolio cagr is reported as it is, with Sharpe and Sortino 0 and no alpha while beta is kept. A NaN benchmark cagr only drops alpha. None of this is modelled.
- Calculations.MeasuredMetrics: promises nothing for a history that ends below zero after a positive start, or for a used benchmark whose last and first values differ in sign. Its requires (`MetricsDefined`) excludes both, because their cagr is NaN in the code.
- Calculations.RiskMetrics: promises nothing for a used benchmark whose end/start ratio is negative, since the benchmark cagr (calculations.py:61) would be NaN. The same holds for Calculations.BenchmarkRelative.
- Simulator.RunSimulation: promises nothing for a run whose value history ends below zero (possible only with a negative amount or negative weights, by `ValuesNonNegative`), or whose benchmark ends with the opposite sign to its start. Its requires asks for `MetricsDefined` of the history. `PositiveRunIsMeasurable` shows that every run with a positive amount, positive weights, positive prices and a positive (or empty) benchmark meets it.
- Calculations.AnnualVolatility: its numeric value (sample standard deviation times the square root of 252) is only stated to be non-negative, because the square root is an uninterpreted parameter.
- Calculations.Cagr: the fractional power is uninterpreted, so only the non-positive-span case is pinned to a value.
- Calculations.MetricsDefined: a history that reaches zero before its last day after a positive start is excluded. In the code that case would divide by zero in `pct_change`.

=== FILE: calculations.dfy ===
/** The metrics calculator (`calculate_metrics`): guard branches, drawdown,
    daily returns, downside clipping and the gating of beta and alpha.
    Fractional powers and square roots are left uninterpreted, so the model
    states structure and signs rather than numeric values. */
module Calculations {
  import opened Wrappers
  import opened Stats

  /** Guard against division by zero, also used by the simulator. */
  const Epsilon: real := 0.000000001
  /** The default risk-free rate. */
  const RiskFreeRate: real := 0.0
  const TradingDaysPerYear: real := 252.0
  const DaysPerYear: real := 365.25

  /** Fractional power and square root, supplied from outside the model. */
  datatype Numerics = Numerics(pow: (real, real) -> real, sqrt: real -> real) {
    /** All the model assumes of them: a square root of a non-negative number
        is non-negative, and the square root of zero is zero. */
    ghost predicate Valid() {
      && (forall x: real :: 0.0 <= x ==> sqrt(x) >= 0.0)
      && sqrt(0.0) == 0.0
    }
  }

  /** The metrics record; `None` is the source's `None` ("not computable"). */
  datatype Metrics = Metrics(
    cagr: real,
    mdd: real,
    volatility: real,
    sharpeRatio: real,
    sortinoRatio: real,
    beta: Option<real>,
    alpha: Option<real>)

  /** The record for a history with fewer than two points. */
  const Unmeasured: Metrics := Metrics(0.0, 0.0, 0.0, 0.0, 0.0, None, None)

  /** The record for a history starting below `Epsilon`: a full-loss drawdown. */
  const WipedOut: Metrics := Metrics(0.0, -1.0, 0.0, 0.0, 0.0, None, None)

  /** Every value that a later value is divided by is non-zero. */
  predicate NonZeroBeforeLast(v: seq<real>) {
    forall i :: 0 <= i < |v| - 1 ==> v[i] != 0.0
  }

  predicate NonDecreasing(v: seq<real>) {
    forall i, j :: 0 <= i <= j < |v| ==> v[i] <= v[j]
  }

  /** What the calculator needs to stay within exact arithmetic: once past the
      guards, no value of the history (nor of a benchmark that is used) before
      the last one is zero, the last value is not negative, a used benchmark
      covers the same dates and does not end with the opposite sign to its
      start, so that no fractional power of a negative ratio is taken. */
  predicate MetricsDefined(v: seq<real>, bench: Option<seq<real>>) {
    |v| >= 2 && v[0] >= Epsilon ==>
      && NonZeroBeforeLast(v)
      && v[|v| - 1] >= 0.0
      && (|v| > 2 && bench.Some? && |bench.value| > 0 ==>
            && |bench.value| == |v| && NonZeroBeforeLast(bench.value)
            && bench.value[|bench.value| - 1] / bench.value[0] >= 0.0)
  }

  /** Compound annual growth from `start` to `end` over `years`; zero when the
      span is not positive. */
  function Cagr(start: real, end: real, years: real, num: Numerics): (g: real)
    requires start != 0.0
    ensures years <= 0.0 ==> g == 0.0
  {
    if years > 0.0 then num.pow(end / start, 1.0 / years) - 1.0 else 0.0
  }

  /** Percentage change between consecutive values: n values give n - 1
      returns. */
  function DailyReturns(v: seq<real>): (r: seq<real>)
    requires NonZeroBeforeLast(v)
    ensures |v| > 0 ==> |r| == |v| - 1
    ensures |v| == 0 ==> r == []
  {
    if |v| == 0 then []
    else seq(|v| - 1, i requires 0 <= i < |v| - 1 => v[i + 1] / v[i] - 1.0)
  }

  /** Rebuilds a value series from a start value and per-step returns. */
  function Compound(start: real, r: seq<real>): (v: seq<real>)
    ensures |v| == |r| + 1 && v[0] == start
    decreases |r|
  {
    if |r| == 0 then [start]
    else [start] + Compound(start * (1.0 + r[0]), r[1..])
  }

  lemma CompoundStep(start: real, r: seq<real>)
    requires |r| > 0
    ensures Compound(start, r) == [start] + Compound(start * (1.0 + r[0]), r[1..])
  {
  }

  /** A non-zero number divided by itself is one. */
  lemma DivSelf(x: real)
    requires x != 0.0
    ensures x / x == 1.0
  {
  }

  /** Multiplying back the percentage change from `b` to `a` gives `a`. */
  lemma MulDivCancel(a: real, b: real)
    requires b != 0.0
    ensures b * (1.0 + (a / b - 1.0)) == a
  {
    assert b * (a / b) == a;
  }

  /** The first return carries the first value to the second, and the other
      returns are those of the series without its first value. */
  lemma ReturnsTail(v: seq<real>)
    requires |v| > 1 && NonZeroBeforeLast(v)
    ensures DailyReturns(v)[1..] == DailyReturns(v[1..])
    ensures v[0] * (1.0 + DailyReturns(v)[0]) == v[1]
  {
    var r0 := DailyReturns(v)[0];
    assert r0 == v[1] / v[0] - 1.0;
    MulDivCancel(v[1], v[0]);
  }

  /** Daily returns lose nothing: compounding them from the first value gives
      back the whole series. */
  lemma {:induction false} ReturnsRoundTrip(v: seq<real>)
    requires |v| > 0 && NonZeroBeforeLast(v)
    ensures Compound(v[0], DailyReturns(v)) == v
  {
    var r := DailyReturns(v);
    if |v| > 1 {
      ReturnsTail(v);
      ReturnsRoundTrip(v[1..]);
      CompoundStep(v[0], r);
      assert v[1..][0] == v[1];
      assert v == [v[0]] + v[1..];
    } else {
      assert r == [];
    }
  }

  /** The running maximum (`cummax`): entry i is the largest of the first
      i + 1 values. */
  function RunningPeak(v: seq<real>): (pk: seq<real>)
    ensures |pk| == |v|
    ensures forall i :: 0 <= i < |v| ==> v[0] <= pk[i]
  {
    if |v| == 0 then []
    else
      var prev := RunningPeak(v[..|v| - 1]);
      var last := v[|v| - 1];
      var top := if |prev| == 0 || last > prev[|prev| - 1] then last else prev[|prev| - 1];
      prev + [top]
  }

  /** Entry i of the running peak bounds every value up to i, is itself one of
      those values, and the peaks never decrease. */
  lemma {:induction false} RunningPeakFacts(v: seq<real>)
    ensures forall i, j :: 0 <= j <= i < |v| ==> v[j] <= RunningPeak(v)[i]
    ensures forall i :: 0 <= i < |v| ==> RunningPeak(v)[i] in v[..i + 1]
    ensures forall i, j :: 0 <= i <= j < |v| ==> RunningPeak(v)[i] <= RunningPeak(v)[j]
  {
    if |v| > 0 {
      var init := v[..|v| - 1];
      RunningPeakFacts(init);
      var prev := RunningPeak(init);
      var pk := RunningPeak(v);
      var n := |v| - 1;
      assert pk[..n] == prev;
      assert pk[n] in v[..n + 1] by {
        if n == 0 || v[n] > prev[n - 1] {
          assert v[..n + 1][n] == v[n];
        } else {
          assert prev[n - 1] in init[..n];
          assert v[..n + 1][..n] == init[..n];
        }
      }
    }
  }

  /** Every value lies at or below its running peak. */
  lemma AtOrBelowPeak(v: seq<real>)
    ensures forall i :: 0 <= i < |v| ==> v[i] <= RunningPeak(v)[i]
  {
    RunningPeakFacts(v);
  }

  /** How far `x` lies below `peak`, relative to the peak (padded by
      `Epsilon`). A value at or below a non-negative peak has a drawdown of at
      most zero, zero exactly at the peak, and above -1 when the value is
      non-negative. */
  function Drawdown(x: real, peak: real): (d: real)
    requires peak >= 0.0
    ensures x <= peak ==> d <= 0.0 && (d == 0.0 <==> x == peak)
    ensures 0.0 <= x <= peak ==> -1.0 < d
  {
    var padded := peak + Epsilon;
    var q := (x - peak) / padded;
    assert q * padded == x - peak;
    q
  }

  /** The drawdown of every value below its running peak: never above zero,
      zero exactly where the value stands at its peak, and above -1 where the
      value is non-negative. */
  function Drawdowns(v: seq<real>): (dd: seq<real>)
    requires |v| > 0 && v[0] >= 0.0
    ensures |dd| == |v|
    ensures forall i :: 0 <= i < |v| ==>
      0.0 <= RunningPeak(v)[i] && dd[i] == Drawdown(v[i], RunningPeak(v)[i])
    ensures forall i :: 0 <= i < |v| ==>
      && dd[i] <= 0.0
      && (dd[i] == 0.0 <==> v[i] == RunningPeak(v)[i])
      && (v[i] >= 0.0 ==> -1.0 < dd[i])
  {
    var pk := RunningPeak(v);
    AtOrBelowPeak(v);
    seq(|v|, i requires 0 <= i < |v| => Drawdown(v[i], pk[i]))
  }

  /** The smallest element. */
  function Minimum(s: seq<real>): (m: real)
    requires |s| > 0
    ensures m in s
    ensures forall i :: 0 <= i < |s| ==> m <= s[i]
  {
    if |s| == 1 then s[0]
    else
      var rest := Minimum(s[..|s| - 1]);
      if s[|s| - 1] < rest then s[|s| - 1] else rest
  }

  /** The maximum drawdown: the deepest drawdown of the series. It is never
      above zero, and for non-negative values it lies above -1. */
  function MaxDrawdown(v: seq<real>): (m: real)
    requires |v| > 0 && v[0] >= 0.0
    ensures m in Drawdowns(v) && forall i :: 0 <= i < |v| ==> m <= Drawdowns(v)[i]
    ensures m <= 0.0
    ensures AllNonNegative(v) ==> -1.0 < m
  {
    Minimum(Drawdowns(v))
  }

  /** A series never falls exactly when it always stands at its running peak. */
  lemma NonDecreasingIffAtPeak(v: seq<real>)
    ensures NonDecreasing(v) <==> forall i :: 0 <= i < |v| ==> v[i] == RunningPeak(v)[i]
  {
    var pk := RunningPeak(v);
    RunningPeakFacts(v);
    if NonDecreasing(v) {
      forall i | 0 <= i < |v|
        ensures v[i] == pk[i]
      {
        assert pk[i] in v[..i + 1];
        var j :| 0 <= j <= i && v[..i + 1][j] == pk[i];
        assert v[j] <= v[i];
      }
    }
  }

  /** The maximum drawdown is zero exactly when the series never falls. */
  lemma MaxDrawdownZeroIff(v: seq<real>)
    requires |v| > 0 && v[0] >= 0.0
    ensures MaxDrawdown(v) == 0.0 <==> NonDecreasing(v)
  {
    var pk := RunningPeak(v);
    var dd := Drawdowns(v);
    NonDecreasingIffAtPeak(v);
    if NonDecreasing(v) {
      assert forall i :: 0 <= i < |v| ==> dd[i] == 0.0;
      assert Minimum(dd) in dd;
    }
    if MaxDrawdown(v) == 0.0 {
      assert forall i :: 0 <= i < |v| ==> dd[i] >= 0.0;
    }
  }

  /** Daily returns in excess of the daily risk-free rate, with gains clipped
      to zero: each entry is the smaller of the excess return and zero. */
  function DownsideReturns(rets: seq<real>, dailyRiskFree: real): (d: seq<real>)
    ensures |d| == |rets|
    ensures forall i :: 0 <= i < |d| ==> d[i] <= 0.0 && d[i] <= rets[i] - dailyRiskFree
    ensures forall i :: 0 <= i < |d| ==> (d[i] == 0.0 || d[i] == rets[i] - dailyRiskFree)
  {
    seq(|rets|, i requires 0 <= i < |rets| =>
      if rets[i] - dailyRiskFree > 0.0 then 0.0 else rets[i] - dailyRiskFree)
  }

  /** Sample standard deviation of the returns, annualised over 252 trading
      days. */
  function AnnualVolatility(rets: seq<real>, num: Numerics): (s: real)
    requires |rets| >= 2 && num.Valid()
    ensures s >= 0.0
  {
    num.sqrt(SampleVariance(rets)) * num.sqrt(TradingDaysPerYear)
  }

  /** Root mean square of the clipped returns (mean over all of them),
      annualised. */
  function DownsideDeviation(downside: seq<real>, num: Numerics): (s: real)
    requires |downside| > 0 && num.Valid()
    ensures s >= 0.0
    ensures (forall i :: 0 <= i < |downside| ==> downside[i] == 0.0) ==> s == 0.0
  {
    MeanOfSquaresNonNegative(downside);
    MeanOfSquaresZero(downside);
    num.sqrt(Mean(Squares(downside))) * num.sqrt(TradingDaysPerYear)
  }

  /** Excess return over volatility (padded by `Epsilon`): it has the sign of
      the excess return. */
  function SharpeRatio(excess: real, volatility: real): (s: real)
    requires volatility >= 0.0
    ensures s > 0.0 <==> excess > 0.0
    ensures s < 0.0 <==> excess < 0.0
  {
    excess / (volatility + Epsilon)
  }

  /** Excess return over downside deviation, or zero when that deviation does
      not exceed `Epsilon`: a non-zero ratio has the sign of the excess return. */
  function SortinoRatio(excess: real, downsideDeviation: real): (s: real)
    ensures s != 0.0 ==> downsideDeviation > Epsilon
    ensures downsideDeviation > Epsilon ==> (s > 0.0 <==> excess > 0.0) && (s < 0.0 <==> excess < 0.0)
  {
    if downsideDeviation > Epsilon then excess / downsideDeviation else 0.0
  }

  /** Beta and alpha against a benchmark, each absent when not computable. */
  datatype Relative = Relative(beta: Option<real>, alpha: Option<real>)

  /** Beta is attempted only for a non-empty benchmark with more than one
      aligned return and a benchmark variance above `Epsilon`; alpha exists
      only alongside beta. */
  function BenchmarkRelative(rets: seq<real>, bench: Option<seq<real>>, cagr: real, years: real,
                             riskFree: real, num: Numerics): (rel: Relative)
    requires bench.Some? && |bench.value| > 0 && |rets| > 1 ==>
      && |bench.value| == |rets| + 1 && NonZeroBeforeLast(bench.value)
      && bench.value[|bench.value| - 1] / bench.value[0] >= 0.0
    ensures rel.alpha.Some? <==> rel.beta.Some?
    ensures rel.beta.Some? <==>
      && bench.Some? && |bench.value| > 0 && |rets| > 1
      && SampleVariance(DailyReturns(bench.value)) > Epsilon
    ensures rel.beta.Some? ==>
      rel.beta.value * SampleVariance(DailyReturns(bench.value)) ==
        SampleCovariance(rets, DailyReturns(bench.value))
  {
    if bench.None? || |bench.value| == 0 || |rets| <= 1 then Relative(None, None)
    else
      var b := bench.value;
      var benchRets := DailyReturns(b);
      var variance := SampleVariance(benchRets);
      if variance > Epsilon then
        var beta := SampleCovariance(rets, benchRets) / variance;
        var benchCagr := Cagr(b[0], b[|b| - 1], years, num);
        var expected := riskFree + beta * (benchCagr - riskFree);
        Relative(Some(beta), Some(cagr - expected))
      else Relative(None, None)
  }

  /** The risk figures computed once there are at least two daily returns:
      volatility, Sharpe, Sortino, and beta/alpha when a usable benchmark is
      given. */
  function RiskMetrics(cagr: real, mdd: real, rets: seq<real>, bench: Option<seq<real>>,
                       years: real, riskFree: real, num: Numerics): (m: Metrics)
    requires num.Valid() && |rets| >= 2
    requires bench.Some? && |bench.value| > 0 ==>
      && |bench.value| == |rets| + 1 && NonZeroBeforeLast(bench.value)
      && bench.value[|bench.value| - 1] / bench.value[0] >= 0.0
    ensures m.cagr == cagr && m.mdd == mdd
    ensures m.volatility >= 0.0
    ensures (m.sharpeRatio > 0.0 <==> cagr > riskFree) && (m.sharpeRatio < 0.0 <==> cagr < riskFree)
    ensures m.sortinoRatio > 0.0 ==> cagr > riskFree
    ensures m.sortinoRatio < 0.0 ==> cagr < riskFree
    ensures (forall i :: 0 <= i < |rets| ==>
               rets[i] >= num.pow(1.0 + riskFree, 1.0 / TradingDaysPerYear) - 1.0) ==>
              m.sortinoRatio == 0.0
    ensures m.alpha.Some? <==> m.beta.Some?
    ensures m.beta.Some? <==>
      bench.Some? && |bench.value| > 0 && SampleVariance(DailyReturns(bench.value)) > Epsilon
  {
    var volatility := AnnualVolatility(rets, num);
    var excess := cagr - riskFree;
    var dailyRiskFree := num.pow(1.0 + riskFree, 1.0 / TradingDaysPerYear) - 1.0;
    var downside := DownsideReturns(rets, dailyRiskFree);
    var rel := BenchmarkRelative(rets, bench, cagr, years, riskFree, num);
    Metrics(cagr, mdd, volatility, SharpeRatio(excess, volatility),
            SortinoRatio(excess, DownsideDeviation(downside, num)), rel.beta, rel.alpha)
  }

  /** The calculator past its two guards: growth and drawdown always, the
      risk figures once there are at least two daily returns. */
  function MeasuredMetrics(v: seq<real>, elapsedDays: int, bench: Option<seq<real>>,
                           riskFree: real, num: Numerics): (m: Metrics)
    requires num.Valid() && |v| >= 2 && v[0] >= Epsilon && MetricsDefined(v, bench)
    ensures m.mdd == MaxDrawdown(v)
    ensures elapsedDays <= 0 ==> m.cagr == 0.0
    ensures |v| == 2 ==>
      m.volatility == 0.0 && m.sharpeRatio == 0.0 && m.sortinoRatio == 0.0 && m.beta.None?
    ensures m.volatility >= 0.0
    ensures |v| > 2 ==>
      (m.sharpeRatio > 0.0 <==> m.cagr > riskFree) && (m.sharpeRatio < 0.0 <==> m.cagr < riskFree)
    ensures m.sortinoRatio > 0.0 ==> m.cagr > riskFree
    ensures m.sortinoRatio < 0.0 ==> m.cagr < riskFree
    ensures m.alpha.Some? <==> m.beta.Some?
    ensures m.beta.Some? <==>
      && |v| > 2 && bench.Some? && |bench.value| > 0
      && SampleVariance(DailyReturns(bench.value)) > Epsilon
  {
    var years := elapsedDays as real / DaysPerYear;
    var cagr := Cagr(v[0], v[|v| - 1], years, num);
    var mdd := MaxDrawdown(v);
    var rets := DailyReturns(v);
    if |rets| < 2 then Metrics(cagr, mdd, 0.0, 0.0, 0.0, None, None)
    else RiskMetrics(cagr, mdd, rets, bench, years, riskFree, num)
  }

  /** The whole calculator. `elapsedDays` is the calendar span of the history,
      `bench` the benchmark's value history if one was given. */
  function CalculateMetrics(v: seq<real>, elapsedDays: int, bench: Option<seq<real>>,
                            riskFree: real, num: Numerics): (m: Metrics)
    requires num.Valid() && MetricsDefined(v, bench)
    ensures |v| < 2 ==> m == Unmeasured
    ensures |v| >= 2 && v[0] < Epsilon ==> m == WipedOut
    ensures |v| >= 2 && v[0] >= Epsilon ==> m.mdd == MaxDrawdown(v)
    ensures |v| >= 2 && v[0] >= Epsilon && elapsedDays <= 0 ==> m.cagr == 0.0
    ensures |v| == 2 && v[0] >= Epsilon ==>
      m.volatility == 0.0 && m.sharpeRatio == 0.0 && m.sortinoRatio == 0.0 && m.beta.None?
    ensures m.volatility >= 0.0
    ensures |v| > 2 && v[0] >= Epsilon ==>
      (m.sharpeRatio > 0.0 <==> m.cagr > riskFree) && (m.sharpeRatio < 0.0 <==> m.cagr < riskFree)
    ensures m.sortinoRatio > 0.0 ==> m.cagr > riskFree
    ensures m.sortinoRatio < 0.0 ==> m.cagr < riskFree
    ensures m.alpha.Some? <==> m.beta.Some?
    ensures m.beta.Some? <==>
      && |v| > 2 && v[0] >= Epsilon && bench.Some? && |bench.value| > 0
      && SampleVariance(DailyReturns(bench.value)) > Epsilon
  {
    if |v| < 2 then Unmeasured
    else if v[0] < Epsilon then WipedOut
    else MeasuredMetrics(v, elapsedDays, bench, riskFree, num)
  }

  /** A series measured against itself as benchmark has beta exactly 1 and
      alpha exactly 0, whenever beta is computable at all. */
  lemma SelfBenchmark(v: seq<real>, elapsedDays: int, riskFree: real, num: Numerics)
    requires num.Valid() && MetricsDefined(v, Some(v))
    requires |v| > 2 && v[0] >= Epsilon
    requires SampleVariance(DailyReturns(v)) > Epsilon
    ensures CalculateMetrics(v, elapsedDays, Some(v), riskFree, num).beta == Some(1.0)
    ensures CalculateMetrics(v, elapsedDays, Some(v), riskFree, num).alpha == Some(0.0)
  {
    var years := elapsedDays as real / DaysPerYear;
    var cagr := Cagr(v[0], v[|v| - 1], years, num);
    var rets := DailyReturns(v);
    var rel := BenchmarkRelative(rets, Some(v), cagr, years, riskFree, num);
    var variance := SampleVariance(rets);
    assert SampleCovariance(rets, rets) == variance;
    DivSelf(variance);
    assert rel == Relative(Some(1.0), Some(cagr - (riskFree + 1.0 * (cagr - riskFree))));
    assert MeasuredMetrics(v, elapsedDays, Some(v), riskFree, num)
        == RiskMetrics(cagr, MaxDrawdown(v), rets, Some(v), years, riskFree, num);
    assert RiskMetrics(cagr, MaxDrawdown(v), rets, Some(v), years, riskFree, num).beta == rel.beta;
    assert RiskMetrics(cagr, MaxDrawdown(v), rets, Some(v), years, riskFree, num).alpha == rel.alpha;
  }
}

=== FILE: calendar.dfy ===
/** Calendar days as the price index of the backtest carries them. */
module Calendar {

  /** A calendar day: year, month (1..12) and day of month. */
  datatype Date = Date(year: int, month: int, day: int)

  /** The quarter of the year a date falls in, as the date index reports it
      (months 1-3 are quarter 1, ..., months 10-12 are quarter 4). */
  function Quarter(d: Date): (q: int)
    ensures 1 <= d.month <= 12 ==> 1 <= q <= 4
    ensures 1 <= d.month <= 12 ==> 3 * q - 2 <= d.month <= 3 * q
  {
    (d.month - 1) / 3 + 1
  }

  /** Strict chronological order: by year, then month, then day. */
  predicate Before(a: Date, b: Date) {
    || a.year < b.year
    || (a.year == b.year && a.month < b.month)
    || (a.year == b.year && a.month == b.month && a.day < b.day)
  }

  /** `a` is `b` or comes before it. */
  predicate NotAfter(a: Date, b: Date) {
    a == b || Before(a, b)
  }

  /** A strictly increasing calendar: dates are unique and in order. */
  predicate Ascending(cal: seq<Date>) {
    forall i, j :: 0 <= i < j < |cal| ==> Before(cal[i], cal[j])
  }

  /** An ascending calendar holds every date at most once. */
  lemma AscendingUnique(cal: seq<Date>)
    requires Ascending(cal)
    ensures forall i, j :: 0 <= i < |cal| && 0 <= j < |cal| && cal[i] == cal[j] ==> i == j
  {
  }

  /** A later month never lies in an earlier quarter. */
  lemma QuarterMonotone(a: Date, b: Date)
    requires a.month <= b.month
    ensures Quarter(a) <= Quarter(b)
  {
  }
}

=== FILE: scheduler.dfy ===
/** The rebalance scheduler (`get_rebalancing_dates`): which dates of the
    aligned calendar re-apply the target weights. */
module Scheduler {
  import opened Wrappers
  import opened Calendar

  /** The rebalancing period a portfolio names. Any name the scheduler does
      not know is `Unrecognised`. */
  datatype Period = Never | Annually | Quarterly | Monthly | Unrecognised

  /** How finely a recognised period partitions the calendar. */
  datatype Granularity = ByYear | ByQuarter | ByMonth

  /** The bucket key of a date: year, (year, quarter) or (year, month). */
  datatype Bucket =
    | YearBucket(year: int)
    | QuarterBucket(year: int, quarter: int)
    | MonthBucket(year: int, month: int)

  /** Reads the period name of a portfolio configuration. */
  function ParsePeriod(name: string): (p: Period)
    ensures p == Never <==> name == "never"
    ensures p == Annually <==> name == "annually"
    ensures p == Quarterly <==> name == "quarterly"
    ensures p == Monthly <==> name == "monthly"
  {
    if name == "never" then Never
    else if name == "annually" then Annually
    else if name == "quarterly" then Quarterly
    else if name == "monthly" then Monthly
    else Unrecognised
  }

  /** The partition a period asks for; `Never` and unknown periods ask for none. */
  function GranularityOf(p: Period): Option<Granularity> {
    match p
    case Annually => Some(ByYear)
    case Quarterly => Some(ByQuarter)
    case Monthly => Some(ByMonth)
    case _ => None
  }

  function BucketOf(d: Date, g: Granularity): Bucket {
    match g
    case ByYear => YearBucket(d.year)
    case ByQuarter => QuarterBucket(d.year, Quarter(d))
    case ByMonth => MonthBucket(d.year, d.month)
  }

  /** No earlier date of the calendar shares the bucket of date `i`. */
  predicate FirstInBucket(cal: seq<Date>, g: Granularity, i: int)
    requires 0 <= i < |cal|
  {
    forall j :: 0 <= j < i ==> BucketOf(cal[j], g) != BucketOf(cal[i], g)
  }

  /** Keeping the first row of every bucket among the first `n` dates,
      in calendar order (a drop of duplicate keys that keeps the first). */
  function FirstDates(cal: seq<Date>, g: Granularity, n: nat): (kept: seq<Date>)
    requires n <= |cal|
    ensures |kept| <= n
    ensures n > 0 ==> |kept| > 0 && kept[0] == cal[0]
    ensures forall k :: 0 <= k < |kept| ==> kept[k] in cal[..n]
  {
    if n == 0 then []
    else FirstDates(cal, g, n - 1) + (if FirstInBucket(cal, g, n - 1) then [cal[n - 1]] else [])
  }

  /** The buckets the first `n` dates occupy. */
  function Buckets(cal: seq<Date>, g: Granularity, n: nat): set<Bucket>
    requires n <= |cal|
  {
    set i | 0 <= i < n :: BucketOf(cal[i], g)
  }

  /** The scheduler: the first date of every bucket, without the very first
      date of the calendar. */
  function RebalancingDates(cal: seq<Date>, p: Period): (r: seq<Date>)
    ensures GranularityOf(p).None? ==> r == []
    ensures |cal| > 0 ==> cal[0] !in r
    ensures forall d :: d in r ==> d in cal
  {
    match GranularityOf(p)
    case None => []
    case Some(g) =>
      var kept := FirstDates(cal, g, |cal|);
      FirstDatesFacts(cal, g, |cal|);
      if |kept| > 1 then kept[1..] else []
  }

  /** A date is kept exactly when it is the first of its bucket; the calendar's
      first date is kept first, and every later kept date lies in another
      bucket than it. */
  lemma {:induction false} FirstDatesFacts(cal: seq<Date>, g: Granularity, n: nat)
    requires n <= |cal|
    ensures n > 0 ==> |FirstDates(cal, g, n)| > 0 && FirstDates(cal, g, n)[0] == cal[0]
    ensures forall d :: d in FirstDates(cal, g, n) <==>
      exists i :: 0 <= i < n && cal[i] == d && FirstInBucket(cal, g, i)
    ensures forall k :: 1 <= k < |FirstDates(cal, g, n)| ==>
      BucketOf(FirstDates(cal, g, n)[k], g) != BucketOf(cal[0], g)
  {
    if n > 0 {
      FirstDatesFacts(cal, g, n - 1);
      var prev := FirstDates(cal, g, n - 1);
      var cur := FirstDates(cal, g, n);
      forall d
        ensures d in cur <==> exists i :: 0 <= i < n && cal[i] == d && FirstInBucket(cal, g, i)
      {
        if d in cur && d !in prev {
          assert d == cal[n - 1] && FirstInBucket(cal, g, n - 1);
        }
      }
      forall k | 1 <= k < |cur|
        ensures BucketOf(cur[k], g) != BucketOf(cal[0], g)
      {
        if k >= |prev| {
          assert cur[k] == cal[n - 1] && FirstInBucket(cal, g, n - 1);
        }
      }
    }
  }

  /** The scheduler emits one date per bucket the calendar spans, except the
      first bucket: a calendar within one bucket gets no rebalance date. */
  lemma RebalanceCount(cal: seq<Date>, p: Period, g: Granularity)
    requires |cal| > 0 && GranularityOf(p) == Some(g)
    ensures |RebalancingDates(cal, p)| == |Buckets(cal, g, |cal|)| - 1
    ensures |Buckets(cal, g, |cal|)| == 1 ==> RebalancingDates(cal, p) == []
  {
    FirstDatesCount(cal, g, |cal|);
    FirstDatesFacts(cal, g, |cal|);
  }

  /** Each kept date opens one new bucket. */
  lemma {:induction false} FirstDatesCount(cal: seq<Date>, g: Granularity, n: nat)
    requires n <= |cal|
    ensures |FirstDates(cal, g, n)| == |Buckets(cal, g, n)|
  {
    if n > 0 {
      FirstDatesCount(cal, g, n - 1);
      var b := BucketOf(cal[n - 1], g);
      BucketsGrow(cal, g, n);
      if FirstInBucket(cal, g, n - 1) {
        assert b !in Buckets(cal, g, n - 1);
      } else {
        var j :| 0 <= j < n - 1 && BucketOf(cal[j], g) == b;
        assert b in Buckets(cal, g, n - 1);
      }
    }
  }

  lemma BucketsGrow(cal: seq<Date>, g: Granularity, n: nat)
    requires 0 < n <= |cal|
    ensures Buckets(cal, g, n) == Buckets(cal, g, n - 1) + {BucketOf(cal[n - 1], g)}
  {
    var b := BucketOf(cal[n - 1], g);
    forall x | x in Buckets(cal, g, n)
      ensures x in Buckets(cal, g, n - 1) + {b}
    {
      var i :| 0 <= i < n && x == BucketOf(cal[i], g);
      if i < n - 1 {
        assert x in Buckets(cal, g, n - 1);
      }
    }
  }

  /** The bucket of date `i` differs from the bucket of the date before it. */
  predicate BucketChanges(cal: seq<Date>, g: Granularity, i: int)
    requires 0 < i < |cal|
  {
    BucketOf(cal[i], g) != BucketOf(cal[i - 1], g)
  }

  /** The left-to-right scan: among the first `n` dates, those (other than the
      first) whose bucket differs from the previous date's bucket. */
  function ChangeDates(cal: seq<Date>, g: Granularity, n: nat): (changes: seq<Date>)
    requires n <= |cal|
    ensures n > 0 ==> |changes| <= n - 1
    ensures forall k :: 0 <= k < |changes| ==> 0 < n && changes[k] in cal[1..n]
  {
    if n <= 1 then []
    else ChangeDates(cal, g, n - 1) + (if BucketChanges(cal, g, n - 1) then [cal[n - 1]] else [])
  }

  /** Buckets are intervals of the calendar order: a date between two dates of
      one bucket lies in that bucket too. */
  lemma BucketsAreIntervals(a: Date, b: Date, c: Date, g: Granularity)
    requires NotAfter(a, b) && NotAfter(b, c)
    requires BucketOf(a, g) == BucketOf(c, g)
    ensures BucketOf(b, g) == BucketOf(c, g)
  {
    if g == ByQuarter {
      assert a.year == b.year == c.year;
      if a.month <= b.month <= c.month {
        QuarterMonotone(a, b);
        QuarterMonotone(b, c);
      }
    }
  }

  /** In an ascending calendar, date `i` is the first of its bucket exactly
      when its bucket differs from the previous date's. */
  lemma FirstInBucketIffChange(cal: seq<Date>, g: Granularity, i: int)
    requires Ascending(cal) && 0 < i < |cal|
    ensures FirstInBucket(cal, g, i) <==> BucketChanges(cal, g, i)
  {
    if BucketChanges(cal, g, i) && !FirstInBucket(cal, g, i) {
      var j :| 0 <= j < i && BucketOf(cal[j], g) == BucketOf(cal[i], g);
      assert NotAfter(cal[j], cal[i - 1]);
      BucketsAreIntervals(cal[j], cal[i - 1], cal[i], g);
    }
  }

  /** On an ascending calendar, keeping the first date of every bucket is the
      first date followed by the scan's change dates. */
  lemma {:induction false} FirstDatesAreChanges(cal: seq<Date>, g: Granularity, n: nat)
    requires Ascending(cal) && 0 < n <= |cal|
    ensures FirstDates(cal, g, n) == [cal[0]] + ChangeDates(cal, g, n)
  {
    if n == 1 {
      assert FirstDates(cal, g, 0) == [];
    } else {
      FirstDatesAreChanges(cal, g, n - 1);
      FirstInBucketIffChange(cal, g, n - 1);
    }
  }

  /** On an ascending calendar the scheduler returns exactly the scan's
      change dates. */
  lemma RebalancingDatesAreChanges(cal: seq<Date>, p: Period, g: Granularity)
    requires Ascending(cal) && GranularityOf(p) == Some(g)
    ensures RebalancingDates(cal, p) == ChangeDates(cal, g, |cal|)
  {
    if |cal| > 0 {
      FirstDatesAreChanges(cal, g, |cal|);
      assert FirstDates(cal, g, |cal|)[1..] == ChangeDates(cal, g, |cal|);
    }
  }

  /** Which dates the scan emits, by position. */
  lemma {:induction false} ChangeDatesMembers(cal: seq<Date>, g: Granularity, n: nat)
    requires n <= |cal|
    ensures forall d :: d in ChangeDates(cal, g, n) <==>
      exists k :: 0 < k < n && cal[k] == d && BucketChanges(cal, g, k)
  {
    if n > 1 {
      ChangeDatesMembers(cal, g, n - 1);
    }
  }

  /** On an ascending calendar, date `i` is a rebalance date if and only if it
      is not the first date and its bucket differs from the previous date's. */
  lemma RebalanceDayIff(cal: seq<Date>, p: Period, i: int)
    requires Ascending(cal) && 0 <= i < |cal|
    ensures cal[i] in RebalancingDates(cal, p) <==>
      GranularityOf(p).Some? && i > 0 && BucketChanges(cal, GranularityOf(p).value, i)
  {
    match GranularityOf(p)
    case None =>
    case Some(g) =>
      RebalancingDatesAreChanges(cal, p, g);
      ChangeDatesMembers(cal, g, |cal|);
      if cal[i] in RebalancingDates(cal, p) {
        var k :| 0 < k < |cal| && cal[k] == cal[i] && BucketChanges(cal, g, k);
        AscendingUnique(cal);
      }
  }

  /** The scheduler as the single left-to-right scan that remembers the last
      bucket key seen; on an ascending calendar it agrees with keeping the
      first date of every bucket. */
  method ScanRebalancingDates(cal: seq<Date>, p: Period) returns (r: seq<Date>)
    ensures GranularityOf(p).None? ==> r == []
    ensures Ascending(cal) ==> r == RebalancingDates(cal, p)
  {
    r := [];
    match GranularityOf(p)
    case None =>
    case Some(g) =>
      if |cal| == 0 {
        return;
      }
      var last := BucketOf(cal[0], g);
      var i := 1;
      while i < |cal|
        invariant 1 <= i <= |cal|
        invariant last == BucketOf(cal[i - 1], g)
        invariant r == ChangeDates(cal, g, i)
      {
        var key := BucketOf(cal[i], g);
        if key != last {
          r := r + [cal[i]];
        }
        last := key;
        i := i + 1;
      }
      if Ascending(cal) {
        RebalancingDatesAreChanges(cal, p, g);
      }
  }
}

=== FILE: shards.dfy ===
/** The ticker list of the price downloader and its split into shards: the
    list file's lines stripped of surrounding whitespace with blank lines
    dropped, then cut into `totalSlices` contiguous slices of equal (ceiling)
    size, of which one job downloads slice `sliceIndex`. */
module Shards {

  /** The characters Python's `str.strip()` removes. */
  predicate IsSpace(c: char) {
    || c == ' ' || ('\t' <= c <= '\r') || ('\U{1C}' <= c <= '\U{1F}')
    || c == '\U{85}' || c == '\U{A0}' || c == '\U{1680}' || ('\U{2000}' <= c <= '\U{200A}')
    || c == '\U{2028}' || c == '\U{2029}' || c == '\U{202F}' || c == '\U{205F}' || c == '\U{3000}'
  }

  predicate AllSpace(s: string) {
    forall i :: 0 <= i < |s| ==> IsSpace(s[i])
  }

  /** Neither begins nor ends with whitespace. */
  predicate Stripped(s: string) {
    |s| == 0 || (!IsSpace(s[0]) && !IsSpace(s[|s| - 1]))
  }

  /** `s` without its leading whitespace. */
  function StripLeading(s: string): (r: string)
    ensures |r| <= |s| && r == s[|s| - |r|..]
    ensures AllSpace(s[..|s| - |r|])
    ensures |r| > 0 ==> !IsSpace(r[0])
  {
    if |s| > 0 && IsSpace(s[0]) then StripLeading(s[1..]) else s
  }

  /** `s` without its trailing whitespace. */
  function StripTrailing(s: string): (r: string)
    ensures |r| <= |s| && r == s[..|r|]
    ensures AllSpace(s[|r|..])
    ensures |r| > 0 ==> !IsSpace(r[|r| - 1])
  {
    if |s| > 0 && IsSpace(s[|s| - 1]) then StripTrailing(s[..|s| - 1]) else s
  }

  /** `str.strip()`: `s` with a whitespace prefix and a whitespace suffix
      removed, leaving a result that starts and ends with non-whitespace;
      empty exactly for an all-whitespace line. */
  function Strip(s: string): (r: string)
    ensures Stripped(r)
    ensures r == [] <==> AllSpace(s)
    ensures LeadingSpace(s) + |r| <= |s| && AllSpace(s[..LeadingSpace(s)])
    ensures s[LeadingSpace(s)..LeadingSpace(s) + |r|] == r
    ensures AllSpace(s[LeadingSpace(s) + |r|..])
  {
    var left := StripLeading(s);
    var r := StripTrailing(left);
    StripPieces(s, left, LeadingSpace(s), r);
    r
  }

  /** The number of leading whitespace characters of `s`. */
  function LeadingSpace(s: string): nat {
    |s| - |StripLeading(s)|
  }

  lemma StripPieces(s: string, left: string, lead: nat, r: string)
    requires lead <= |s| && left == s[lead..] && AllSpace(s[..lead])
    requires |left| > 0 ==> !IsSpace(left[0])
    requires |r| <= |left| && r == left[..|r|] && AllSpace(left[|r|..])
    ensures s[lead..lead + |r|] == r && AllSpace(s[lead + |r|..])
    ensures r == [] <==> AllSpace(s)
  {
    assert s[lead + |r|..] == left[|r|..];
    if r == [] {
      assert left[|r|..] == left;
      AllSpaceConcat(s[..lead], left);
      assert s == s[..lead] + left;
    }
  }

  lemma AllSpaceConcat(a: string, b: string)
    requires AllSpace(a) && AllSpace(b)
    ensures AllSpace(a + b)
  {
  }

  /** What one line of the list file contributes: nothing when it is blank,
      its stripped text otherwise. */
  function LineTickers(line: string): (t: seq<string>)
    ensures AllSpace(line) ==> t == []
    ensures !AllSpace(line) ==> t == [Strip(line)]
  {
    var stripped := Strip(line);
    if stripped == [] then [] else [stripped]
  }

  /** The ticker list: every line stripped, blank lines dropped. */
  function KeptTickers(lines: seq<string>): (tickers: seq<string>)
    ensures |tickers| <= |lines|
  {
    if |lines| == 0 then []
    else KeptTickers(lines[..|lines| - 1]) + LineTickers(lines[|lines| - 1])
  }

  /** Every kept ticker is non-empty and carries no surrounding whitespace. */
  lemma {:induction false} KeptTickersAreStripped(lines: seq<string>)
    ensures forall k :: 0 <= k < |KeptTickers(lines)| ==>
      |KeptTickers(lines)[k]| > 0 && Stripped(KeptTickers(lines)[k])
  {
    if |lines| > 0 {
      KeptTickersAreStripped(lines[..|lines| - 1]);
    }
  }

  /** The list keeps file order: the tickers of consecutive parts of the file
      are concatenated, and a single line contributes its stripped text unless
      it is blank. */
  lemma {:induction false} KeptTickersFileOrder(a: seq<string>, b: seq<string>)
    ensures KeptTickers(a + b) == KeptTickers(a) + KeptTickers(b)
    ensures |b| == 1 ==> KeptTickers(b) == LineTickers(b[0])
  {
    if |b| > 0 {
      var b' := b[..|b| - 1];
      var last := b[|b| - 1];
      KeptTickersFileOrder(a, b');
      SplitLast(a, b);
      KeptTickersSnoc(a + b', last);
      KeptTickersSnoc(b', last);
      ConcatAssociative(KeptTickers(a), KeptTickers(b'), LineTickers(last));
    } else {
      assert a + b == a;
    }
  }

  lemma ConcatAssociative<T>(x: seq<T>, y: seq<T>, z: seq<T>)
    ensures x + (y + z) == (x + y) + z
  {
  }

  lemma SplitLast<T>(a: seq<T>, b: seq<T>)
    requires |b| > 0
    ensures b == b[..|b| - 1] + [b[|b| - 1]]
    ensures a + b == (a + b[..|b| - 1]) + [b[|b| - 1]]
    ensures |b| == 1 ==> b == [] + [b[0]]
  {
  }

  lemma KeptTickersSnoc(lines: seq<string>, line: string)
    ensures KeptTickers(lines + [line]) == KeptTickers(lines) + LineTickers(line)
  {
    assert (lines + [line])[..|lines|] == lines;
  }

  /** Python's floor division `//`. */
  function FloorDiv(a: int, b: int): (q: int)
    requires b != 0
    ensures b > 0 ==> q * b <= a < q * b + b
    ensures b < 0 ==> q * b + b < a <= q * b
  {
    if b > 0 then a / b else (-a) / (-b)
  }

  /** Python's normalisation of a slice bound against a length `n`: negative
      bounds count from the end, and both ends are clamped to [0, n]. */
  function SliceBound(i: int, n: nat): (b: nat)
    ensures b <= n
    ensures 0 <= i <= n ==> b == i
    ensures i > n ==> b == n
    ensures -(n as int) <= i < 0 ==> b == i + n
    ensures i < -(n as int) ==> b == 0
  {
    if i < 0 then (if i + n < 0 then 0 else i + n) else if i > n then n else i
  }

  /** `s[start:end]` with Python's slice semantics. */
  function PySlice<T>(s: seq<T>, start: int, end: int): seq<T> {
    var lo := SliceBound(start, |s|);
    var hi := SliceBound(end, |s|);
    if lo < hi then s[lo..hi] else []
  }

  /** The length of every slice: `(n + total - 1) // total`. For a positive
      number of slices it is the ceiling of n / totalSlices: enough slices
      cover the list, one fewer per slice would not. */
  function SliceSize(n: nat, totalSlices: int): (size: int)
    requires totalSlices != 0
    ensures totalSlices > 0 ==> size >= 0 && size * totalSlices >= n && (size - 1) * totalSlices < n
  {
    FloorDiv(n + totalSlices - 1, totalSlices)
  }

  /** Slice `sliceIndex` of the list. For a slice index k >= 0 it is the
      clamped range [min(k * size, n), min(k * size + size, n)) of the list, at
      most `size` long, and empty exactly when k * size >= n. */
  function Shard<T>(all: seq<T>, sliceIndex: int, totalSlices: int): (slice: seq<T>)
    requires totalSlices != 0
    ensures totalSlices > 0 && sliceIndex >= 0 ==>
      && 0 <= ShardStart(|all|, totalSlices, sliceIndex)
      && ShardStart(|all|, totalSlices, sliceIndex) <= ShardEnd(|all|, totalSlices, sliceIndex) <= |all|
      && slice == all[ShardStart(|all|, totalSlices, sliceIndex)..ShardEnd(|all|, totalSlices, sliceIndex)]
      && |slice| <= SliceSize(|all|, totalSlices)
      && (slice == [] <==> sliceIndex * SliceSize(|all|, totalSlices) >= |all|)
  {
    var size := SliceSize(|all|, totalSlices);
    var start := sliceIndex * size;
    if totalSlices > 0 && sliceIndex >= 0 then
      MulMonotone(0, sliceIndex, size);
      assert start < |all| ==> size > 0;
      PySlice(all, start, start + size)
    else PySlice(all, start, start + size)
  }

  /** What one downloader job does: fail on zero slices (a division by zero),
      end early on an empty slice, or download the slice's tickers. */
  datatype ShardPlan = DivisionByZero | NothingToDo | Download(tickers: seq<string>)

  function PlanShard(lines: seq<string>, sliceIndex: int, totalSlices: int): (plan: ShardPlan)
    ensures plan.DivisionByZero? <==> totalSlices == 0
    ensures plan.Download? ==> |plan.tickers| > 0
    ensures plan.Download? ==>
      forall k :: 0 <= k < |plan.tickers| ==> |plan.tickers[k]| > 0 && Stripped(plan.tickers[k])
    ensures totalSlices != 0 && plan.Download? ==>
      plan.tickers == Shard(KeptTickers(lines), sliceIndex, totalSlices)
    ensures totalSlices != 0 ==>
      (plan.NothingToDo? <==> Shard(KeptTickers(lines), sliceIndex, totalSlices) == [])
    ensures totalSlices > 0 && sliceIndex >= 0 ==>
      (plan.NothingToDo? <==>
        sliceIndex * SliceSize(|KeptTickers(lines)|, totalSlices) >= |KeptTickers(lines)|)
  {
    if totalSlices == 0 then DivisionByZero
    else
      var all := KeptTickers(lines);
      var slice := Shard(all, sliceIndex, totalSlices);
      KeptTickersAreStripped(lines);
      if slice == [] then NothingToDo else Download(slice)
  }

  lemma MulMonotone(a: int, b: int, s: int)
    requires a <= b && s >= 0
    ensures a * s <= b * s
  {
  }

  function Min(a: int, b: int): int {
    if a <= b then a else b
  }

  /** First position of slice k. */
  function ShardStart(n: nat, totalSlices: int, k: int): int
    requires totalSlices > 0
  {
    Min(k * SliceSize(n, totalSlices), n)
  }

  /** One past the last position of slice k. */
  function ShardEnd(n: nat, totalSlices: int, k: int): int
    requires totalSlices > 0
  {
    Min(k * SliceSize(n, totalSlices) + SliceSize(n, totalSlices), n)
  }

  /** Slices of distinct indices occupy disjoint ranges of positions: an
      earlier slice ends where or before a later one starts. */
  lemma ShardsDisjoint(n: nat, totalSlices: int, k: int, k': int)
    requires totalSlices > 0 && 0 <= k < k'
    ensures ShardEnd(n, totalSlices, k) <= ShardStart(n, totalSlices, k')
  {
    var size := SliceSize(n, totalSlices);
    MulMonotone(k + 1, k', size);
  }

  /** The slices 0 .. m - 1 one after the other. */
  function FirstShards<T>(all: seq<T>, totalSlices: int, m: nat): seq<T>
    requires totalSlices > 0
  {
    if m == 0 then [] else FirstShards(all, totalSlices, m - 1) + Shard(all, m - 1, totalSlices)
  }

  /** The first m slices make up the list up to the start of slice m. */
  lemma {:induction false} ShardsPrefix<T>(all: seq<T>, totalSlices: int, m: nat)
    requires totalSlices > 0
    ensures FirstShards(all, totalSlices, m) == all[..ShardStart(|all|, totalSlices, m)]
  {
    var size := SliceSize(|all|, totalSlices);
    if m > 0 {
      ShardsPrefix(all, totalSlices, m - 1);
      MulMonotone(0, m - 1, size);
      assert ShardEnd(|all|, totalSlices, m - 1) == ShardStart(|all|, totalSlices, m);
      assert all[..ShardStart(|all|, totalSlices, m)] ==
        all[..ShardStart(|all|, totalSlices, m - 1)]
          + all[ShardStart(|all|, totalSlices, m - 1)..ShardEnd(|all|, totalSlices, m - 1)];
    } else {
      MulMonotone(0, 0, size);
    }
  }

  /** Slice number `totalSlices` would start at the end of the list. */
  lemma LastShardEnds(n: nat, totalSlices: int)
    requires totalSlices > 0
    ensures ShardStart(n, totalSlices, totalSlices) == n
  {
    var size := SliceSize(n, totalSlices);
    assert totalSlices * size == size * totalSlices;
  }

  /** Concatenating slices 0 .. totalSlices - 1 gives back the whole list. */
  lemma ShardsCover<T>(all: seq<T>, totalSlices: int)
    requires totalSlices > 0
    ensures FirstShards(all, totalSlices, totalSlices) == all
  {
    ShardsPrefix(all, totalSlices, totalSlices);
    LastShardEnds(|all|, totalSlices);
    assert all[..|all|] == all;
  }
}

=== FILE: simulator.dfy ===
/** The share-based portfolio simulator (`run_simulation`): shares bought at
    the first date, marked to market on every later date, and reset to the
    target weights on rebalance dates. */
module Simulator {
  import opened Wrappers
  import opened Calendar
  import opened Scheduler
  import opened Stats
  import opened Calculations

  /** The prices of a portfolio's tickers on the aligned calendar: one row per
      date, one column per ticker. */
  datatype PriceTable = PriceTable(dates: seq<Date>, rows: seq<seq<real>>)

  /** A portfolio: target weights in percentage points, one per ticker, and
      its rebalancing period. */
  datatype Portfolio = Portfolio(weights: seq<real>, period: Period)

  /** A finished simulation: the metrics and one value per calendar date. */
  datatype Report = Report(metrics: Metrics, history: seq<real>)

  /** Strictly increasing dates (a price table's index), one row per date,
      one non-negative price per weight in every row. */
  predicate Admissible(t: PriceTable, pf: Portfolio) {
    && Ascending(t.dates)
    && |t.rows| == |t.dates|
    && (forall i :: 0 <= i < |t.rows| ==> |t.rows[i]| == |pf.weights|)
    && (forall i :: 0 <= i < |t.rows| ==> AllNonNegative(t.rows[i]))
  }

  predicate AllPositive(s: seq<real>) {
    forall i :: 0 <= i < |s| ==> s[i] > 0.0
  }

  /** Percentage points as fractions. */
  function Fractions(weights: seq<real>): (f: seq<real>)
    ensures |f| == |weights|
    ensures Sum(f) == Sum(weights) / 100.0
  {
    var f := seq(|weights|, j requires 0 <= j < |weights| => weights[j] / 100.0);
    SumScaled(weights, 1.0 / 100.0, f);
    f
  }

  /** Shares that put `fraction` of `value` into each ticker at `prices`
      (each price padded by `Epsilon`). */
  function Allocate(value: real, fractions: seq<real>, prices: seq<real>): (shares: seq<real>)
    requires |fractions| == |prices| && AllNonNegative(prices)
    ensures |shares| == |prices|
    ensures forall j :: 0 <= j < |prices| ==>
      shares[j] * (prices[j] + Epsilon) == value * fractions[j]
  {
    seq(|prices|, j requires 0 <= j < |prices| => value * fractions[j] / (prices[j] + Epsilon))
  }

  /** Mark-to-market value of a holding. */
  function Worth(shares: seq<real>, prices: seq<real>): real
    requires |shares| == |prices|
  {
    Dot(shares, prices)
  }

  /** Non-negative shares at non-negative prices are worth a non-negative
      amount, and positive shares at positive prices a positive one. */
  lemma WorthSign(shares: seq<real>, prices: seq<real>)
    requires |shares| == |prices|
    ensures AllNonNegative(shares) && AllNonNegative(prices) ==> Worth(shares, prices) >= 0.0
    ensures |shares| > 0 && AllPositive(shares) && AllPositive(prices) ==> Worth(shares, prices) > 0.0
  {
    if AllNonNegative(shares) && AllNonNegative(prices) {
      DotNonNegative(shares, prices);
    }
    if |shares| > 0 && AllPositive(shares) && AllPositive(prices) {
      DotPositive(shares, prices);
    }
  }

  /** Date `i` is one of the scheduler's rebalance dates. */
  predicate RebalanceDay(t: PriceTable, pf: Portfolio, i: int)
    requires 0 <= i < |t.dates|
  {
    t.dates[i] in RebalancingDates(t.dates, pf.period)
  }

  /** The shares held once date `i` has been processed. */
  function Holdings(t: PriceTable, pf: Portfolio, amount: real, i: int): (shares: seq<real>)
    requires Admissible(t, pf) && 0 <= i < |t.dates|
    ensures |shares| == |pf.weights|
    decreases i
  {
    if i == 0 then Allocate(amount, Fractions(pf.weights), t.rows[0])
    else
      var held := Holdings(t, pf, amount, i - 1);
      if RebalanceDay(t, pf, i) then
        Allocate(Worth(held, t.rows[i]), Fractions(pf.weights), t.rows[i])
      else held
  }

  /** The value recorded for date `i`: the initial amount on the first date,
      afterwards the worth at that date's prices of the shares held before
      any rebalance on that date. */
  function ValueOn(t: PriceTable, pf: Portfolio, amount: real, i: int): (value: real)
    requires Admissible(t, pf) && 0 <= i < |t.dates|
    ensures i == 0 ==> value == amount
    ensures i > 0 ==> value == Worth(Holdings(t, pf, amount, i - 1), t.rows[i])
    ensures i > 0 && AllNonNegative(Holdings(t, pf, amount, i - 1)) ==> value >= 0.0
  {
    if i == 0 then amount
    else
      WorthSign(Holdings(t, pf, amount, i - 1), t.rows[i]);
      Worth(Holdings(t, pf, amount, i - 1), t.rows[i])
  }

  /** The whole value history. */
  function ValueHistory(t: PriceTable, pf: Portfolio, amount: real): (h: seq<real>)
    requires Admissible(t, pf)
    ensures |h| == |t.dates|
  {
    seq(|t.dates|, i requires 0 <= i < |t.dates| => ValueOn(t, pf, amount, i))
  }

  /** The simulation loop followed by the metrics of its history. There is no
      result when the price table has no dates or no tickers. */
  method RunSimulation(t: PriceTable, pf: Portfolio, amount: real, elapsedDays: int,
                       bench: Option<seq<real>>, num: Numerics) returns (r: Option<Report>)
    requires Admissible(t, pf) && num.Valid()
    requires |t.dates| >= 2 ==> elapsedDays > 0
    requires MetricsDefined(ValueHistory(t, pf, amount), bench)
    ensures r.None? <==> |t.dates| == 0 || |pf.weights| == 0
    ensures r.Some? ==> r.value.history == ValueHistory(t, pf, amount)
    ensures r.Some? ==> |r.value.history| == |t.dates| && r.value.history[0] == amount
    ensures r.Some? ==> forall i :: 1 <= i < |t.dates| ==>
      r.value.history[i] == Worth(Holdings(t, pf, amount, i - 1), t.rows[i])
    ensures r.Some? ==>
      r.value.metrics == CalculateMetrics(r.value.history, elapsedDays, bench, RiskFreeRate, num)
  {
    if |t.dates| == 0 || |pf.weights| == 0 {
      return None;
    }
    var fractions := Fractions(pf.weights);
    var rebalanceDates := RebalancingDates(t.dates, pf.period);
    var shares := Allocate(amount, fractions, t.rows[0]);
    var history := [amount];
    var i := 1;
    while i < |t.dates|
      invariant 1 <= i <= |t.dates|
      invariant shares == Holdings(t, pf, amount, i - 1)
      invariant |history| == i
      invariant forall k :: 0 <= k < i ==> history[k] == ValueOn(t, pf, amount, k)
    {
      var value := Worth(shares, t.rows[i]);
      history := history + [value];
      if t.dates[i] in rebalanceDates {
        shares := Allocate(value, fractions, t.rows[i]);
      }
      i := i + 1;
    }
    assert history == ValueHistory(t, pf, amount);
    var metrics := CalculateMetrics(history, elapsedDays, bench, RiskFreeRate, num);
    return Some(Report(metrics, history));
  }

  /** Between two dates with no rebalance date in between, the holding does
      not change. */
  lemma {:induction false} HoldsBetweenRebalances(t: PriceTable, pf: Portfolio, amount: real, a: int, b: int)
    requires Admissible(t, pf) && 0 <= a <= b < |t.dates|
    requires forall k :: a < k <= b ==> !RebalanceDay(t, pf, k)
    ensures Holdings(t, pf, amount, b) == Holdings(t, pf, amount, a)
  {
    if a < b {
      HoldsBetweenRebalances(t, pf, amount, a, b - 1);
    }
  }

  /** With period `never` (or an unknown period) the initial shares are held
      for the whole run. */
  lemma NeverHoldsInitialShares(t: PriceTable, pf: Portfolio, amount: real, i: int)
    requires Admissible(t, pf) && 0 <= i < |t.dates|
    requires GranularityOf(pf.period).None?
    ensures Holdings(t, pf, amount, i) == Allocate(amount, Fractions(pf.weights), t.rows[0])
  {
    HoldsBetweenRebalances(t, pf, amount, 0, i);
  }

  /** On the first date and on every rebalance date, each ticker's shares
      times its padded price equal the recorded value times its target
      weight. */
  lemma RebalanceHitsTargets(t: PriceTable, pf: Portfolio, amount: real, i: int)
    requires Admissible(t, pf) && 0 <= i < |t.dates|
    requires i == 0 || RebalanceDay(t, pf, i)
    ensures forall j :: 0 <= j < |pf.weights| ==>
      Holdings(t, pf, amount, i)[j] * (t.rows[i][j] + Epsilon) ==
        ValueOn(t, pf, amount, i) * pf.weights[j] / 100.0
  {
    var f := Fractions(pf.weights);
    if i == 0 {
      assert Holdings(t, pf, amount, 0) == Allocate(amount, f, t.rows[0]);
    } else {
      assert Holdings(t, pf, amount, i) ==
        Allocate(Worth(Holdings(t, pf, amount, i - 1), t.rows[i]), f, t.rows[i]);
    }
    AllocateMeetsWeights(ValueOn(t, pf, amount, i), pf.weights, t.rows[i], Holdings(t, pf, amount, i));
  }

  /** Shares bought for `value` put weight/100 of it, padded, in each stock. */
  lemma AllocateMeetsWeights(value: real, weights: seq<real>, prices: seq<real>, shares: seq<real>)
    requires |weights| == |prices| && AllNonNegative(prices)
    requires shares == Allocate(value, Fractions(weights), prices)
    ensures forall j :: 0 <= j < |weights| ==>
      shares[j] * (prices[j] + Epsilon) == value * weights[j] / 100.0
  {
    var f := Fractions(weights);
    forall j | 0 <= j < |weights|
      ensures shares[j] * (prices[j] + Epsilon) == value * weights[j] / 100.0
    {
      assert shares[j] * (prices[j] + Epsilon) == value * f[j];
      assert f[j] == weights[j] / 100.0;
    }
  }

  /** A non-negative padded cost buys a non-negative number of shares, worth
      at most that cost at the unpadded price. */
  lemma PaddedCostBound(shares: real, price: real, cost: real)
    requires price >= 0.0 && cost >= 0.0 && shares * (price + Epsilon) == cost
    ensures shares >= 0.0 && shares * price <= cost
  {
  }

  /** Shares whose padded cost equals their share of `value` are worth at most
      `value` times the sum of the fractions. */
  lemma {:induction false} AllocationWorthBound(value: real, fractions: seq<real>, prices: seq<real>, shares: seq<real>)
    requires |fractions| == |prices| == |shares|
    requires value >= 0.0 && AllNonNegative(fractions) && AllNonNegative(prices)
    requires forall j :: 0 <= j < |prices| ==> shares[j] * (prices[j] + Epsilon) == value * fractions[j]
    ensures Worth(shares, prices) <= value * Sum(fractions)
  {
    var n := |prices|;
    if n > 0 {
      var f, p, s := fractions[n - 1], prices[n - 1], shares[n - 1];
      var front := Sum(fractions[..n - 1]);
      AllocationWorthBound(value, fractions[..n - 1], prices[..n - 1], shares[..n - 1]);
      assert Worth(shares, prices) == Worth(shares[..n - 1], prices[..n - 1]) + s * p;
      assert Sum(fractions) == front + f;
      assert value * f >= 0.0;
      PaddedCostBound(s, p, value * f);
      assert value * (front + f) == value * front + value * f;
    }
  }

  /** When the weights are non-negative and add up to 100, buying (or
      rebalancing) never creates value: the new holding is worth at most the
      amount invested, at that date's prices. */
  lemma AllocationNeverExceedsValue(t: PriceTable, pf: Portfolio, amount: real, i: int)
    requires Admissible(t, pf) && 0 <= i < |t.dates|
    requires i == 0 || RebalanceDay(t, pf, i)
    requires amount >= 0.0 && AllNonNegative(pf.weights) && Sum(pf.weights) == 100.0
    ensures Worth(Holdings(t, pf, amount, i), t.rows[i]) <= ValueOn(t, pf, amount, i)
  {
    var f := Fractions(pf.weights);
    var v := ValueOn(t, pf, amount, i);
    var shares := Holdings(t, pf, amount, i);
    ValuesNonNegative(t, pf, amount, i);
    assert AllNonNegative(f);
    assert Sum(f) == 1.0;
    assert shares == Allocate(v, f, t.rows[i]);
    AllocationWorthBound(v, f, t.rows[i], shares);
  }

  /** A non-negative value spread by non-negative fractions buys a
      non-negative number of shares of every asset. */
  lemma AllocateNonNegative(value: real, fractions: seq<real>, prices: seq<real>)
    requires |fractions| == |prices| && AllNonNegative(prices)
    requires value >= 0.0 && AllNonNegative(fractions)
    ensures AllNonNegative(Allocate(value, fractions, prices))
  {
    var shares := Allocate(value, fractions, prices);
    forall j | 0 <= j < |prices|
      ensures shares[j] >= 0.0
    {
      PaddedCostBound(shares[j], prices[j], value * fractions[j]);
    }
  }

  /** With a non-negative amount and non-negative weights, every holding and
      every recorded value is non-negative. */
  lemma {:induction false} ValuesNonNegative(t: PriceTable, pf: Portfolio, amount: real, i: int)
    requires Admissible(t, pf) && 0 <= i < |t.dates|
    requires amount >= 0.0 && AllNonNegative(pf.weights)
    ensures AllNonNegative(Holdings(t, pf, amount, i))
    ensures ValueOn(t, pf, amount, i) >= 0.0
  {
    var f := Fractions(pf.weights);
    assert AllNonNegative(f);
    if i == 0 {
      AllocateNonNegative(amount, f, t.rows[0]);
    } else {
      ValuesNonNegative(t, pf, amount, i - 1);
      var held := Holdings(t, pf, amount, i - 1);
      var v := Worth(held, t.rows[i]);
      assert AllNonNegative(t.rows[i]);
      assert ValueOn(t, pf, amount, i) == v;
      if RebalanceDay(t, pf, i) {
        AllocateNonNegative(v, f, t.rows[i]);
        assert Holdings(t, pf, amount, i) == Allocate(v, f, t.rows[i]);
      } else {
        assert Holdings(t, pf, amount, i) == held;
      }
    }
  }

  /** A positive value spread by positive fractions at positive prices buys
      a positive number of shares of every asset. */
  lemma AllocatePositive(value: real, fractions: seq<real>, prices: seq<real>)
    requires |fractions| == |prices| && AllPositive(prices) && AllNonNegative(prices)
    requires value > 0.0 && AllPositive(fractions)
    ensures AllPositive(Allocate(value, fractions, prices))
  {
    var shares := Allocate(value, fractions, prices);
    forall j | 0 <= j < |prices|
      ensures shares[j] > 0.0
    {
      assert shares[j] * (prices[j] + Epsilon) == value * fractions[j];
      assert value * fractions[j] > 0.0;
    }
  }

  /** With a positive amount, positive weights and positive prices, every
      holding and every recorded value is positive. */
  lemma {:induction false} ValuesPositive(t: PriceTable, pf: Portfolio, amount: real, i: int)
    requires Admissible(t, pf) && 0 <= i < |t.dates| && |pf.weights| > 0
    requires amount > 0.0 && AllPositive(pf.weights)
    requires forall k :: 0 <= k < |t.rows| ==> AllPositive(t.rows[k])
    ensures AllPositive(Holdings(t, pf, amount, i))
    ensures ValueOn(t, pf, amount, i) > 0.0
  {
    var f := Fractions(pf.weights);
    assert AllPositive(f);
    if i == 0 {
      AllocatePositive(amount, f, t.rows[0]);
    } else {
      ValuesPositive(t, pf, amount, i - 1);
      var held := Holdings(t, pf, amount, i - 1);
      DotPositive(held, t.rows[i]);
      var v := Worth(held, t.rows[i]);
      assert ValueOn(t, pf, amount, i) == v;
      if RebalanceDay(t, pf, i) {
        AllocatePositive(v, f, t.rows[i]);
        assert Holdings(t, pf, amount, i) == Allocate(v, f, t.rows[i]);
      } else {
        assert Holdings(t, pf, amount, i) == held;
      }
    }
  }

  /** Such a portfolio meets what the metrics calculator needs of its history,
      for no benchmark or a positive benchmark on the same calendar. */
  lemma PositiveRunIsMeasurable(t: PriceTable, pf: Portfolio, amount: real, bench: Option<seq<real>>)
    requires Admissible(t, pf) && |pf.weights| > 0
    requires amount > 0.0 && AllPositive(pf.weights)
    requires forall k :: 0 <= k < |t.rows| ==> AllPositive(t.rows[k])
    requires bench.Some? ==> |bench.value| == 0 || (|bench.value| == |t.dates| && AllPositive(bench.value))
    ensures MetricsDefined(ValueHistory(t, pf, amount), bench)
  {
    var h := ValueHistory(t, pf, amount);
    forall i | 0 <= i < |h|
      ensures h[i] > 0.0
    {
      ValuesPositive(t, pf, amount, i);
    }
    if bench.Some? && |bench.value| > 0 {
      var b := bench.value;
      assert b[0] > 0.0 && b[|b| - 1] > 0.0;
      assert b[|b| - 1] / b[0] > 0.0;
    }
  }
}

=== FILE: stats.dfy ===
/** Sums, means and sample (co)variance over sequences of reals, as the
    series library computes them. */
module Stats {

  /** The sum of a sequence. */
  function Sum(s: seq<real>): real {
    if |s| == 0 then 0.0 else Sum(s[..|s| - 1]) + s[|s| - 1]
  }

  /** The sum of pairwise products of two equally long sequences. */
  function Dot(a: seq<real>, b: seq<real>): real
    requires |a| == |b|
  {
    if |a| == 0 then 0.0 else Dot(a[..|a| - 1], b[..|b| - 1]) + a[|a| - 1] * b[|b| - 1]
  }

  /** The arithmetic mean (population denominator). */
  function Mean(s: seq<real>): real
    requires |s| > 0
  {
    Sum(s) / |s| as real
  }

  /** Every element less `m`. */
  function Centered(s: seq<real>, m: real): seq<real> {
    seq(|s|, i requires 0 <= i < |s| => s[i] - m)
  }

  /** Every element squared. */
  function Squares(s: seq<real>): seq<real> {
    seq(|s|, i requires 0 <= i < |s| => s[i] * s[i])
  }

  /** Sample covariance (denominator n - 1), the series library's default.
      It is symmetric in its two series, and non-negative for a series paired
      with itself. */
  function SampleCovariance(a: seq<real>, b: seq<real>): (c: real)
    requires |a| == |b| && |a| >= 2
    ensures c == Dot(Centered(b, Mean(b)), Centered(a, Mean(a))) / (|a| - 1) as real
    ensures a == b ==> c >= 0.0
  {
    var ca := Centered(a, Mean(a));
    var cb := Centered(b, Mean(b));
    DotSymmetric(ca, cb);
    DotSelfNonNegative(ca);
    Dot(ca, cb) / (|a| - 1) as real
  }

  /** Sample variance (denominator n - 1). */
  function SampleVariance(a: seq<real>): real
    requires |a| >= 2
  {
    SampleCovariance(a, a)
  }

  /** The order of the two factors does not matter. */
  lemma {:induction false} DotSymmetric(a: seq<real>, b: seq<real>)
    requires |a| == |b|
    ensures Dot(a, b) == Dot(b, a)
  {
    if |a| > 0 {
      DotSymmetric(a[..|a| - 1], b[..|b| - 1]);
    }
  }

  predicate AllNonNegative(s: seq<real>) {
    forall i :: 0 <= i < |s| ==> s[i] >= 0.0
  }

  lemma {:induction false} SumNonNegative(s: seq<real>)
    requires AllNonNegative(s)
    ensures Sum(s) >= 0.0
  {
    if |s| > 0 {
      SumNonNegative(s[..|s| - 1]);
    }
  }

  lemma {:induction false} DotSelfNonNegative(a: seq<real>)
    ensures Dot(a, a) >= 0.0
  {
    if |a| > 0 {
      DotSelfNonNegative(a[..|a| - 1]);
    }
  }

  /** Products of non-negative sequences sum to a non-negative number. */
  lemma {:induction false} DotNonNegative(a: seq<real>, b: seq<real>)
    requires |a| == |b| && AllNonNegative(a) && AllNonNegative(b)
    ensures Dot(a, b) >= 0.0
  {
    if |a| > 0 {
      DotNonNegative(a[..|a| - 1], b[..|b| - 1]);
    }
  }

  /** Products of positive sequences sum to a positive number. */
  lemma {:induction false} DotPositive(a: seq<real>, b: seq<real>)
    requires |a| == |b| > 0
    requires forall i :: 0 <= i < |a| ==> a[i] > 0.0 && b[i] > 0.0
    ensures Dot(a, b) > 0.0
  {
    DotNonNegative(a[..|a| - 1], b[..|b| - 1]);
  }

  lemma MeanOfSquaresNonNegative(s: seq<real>)
    requires |s| > 0
    ensures Mean(Squares(s)) >= 0.0
  {
    SumNonNegative(Squares(s));
  }

  /** A series of zeros sums to zero. */
  lemma {:induction false} SumZero(s: seq<real>)
    ensures (forall i :: 0 <= i < |s| ==> s[i] == 0.0) ==> Sum(s) == 0.0
  {
    if |s| > 0 {
      SumZero(s[..|s| - 1]);
    }
  }

  /** Squares of zeros have mean zero. */
  lemma MeanOfSquaresZero(s: seq<real>)
    requires |s| > 0
    ensures (forall i :: 0 <= i < |s| ==> s[i] == 0.0) ==> Mean(Squares(s)) == 0.0
  {
    SumZero(Squares(s));
  }

  /** Scaling every element scales the sum. */
  lemma {:induction false} SumScaled(s: seq<real>, c: real, t: seq<real>)
    requires |t| == |s| && forall i :: 0 <= i < |s| ==> t[i] == s[i] * c
    ensures Sum(t) == Sum(s) * c
  {
    if |s| > 0 {
      SumScaled(s[..|s| - 1], c, t[..|t| - 1]);
    }
  }
}

=== FILE: wrappers.dfy ===
/** Optional values: the model's counterpart of Python's `None`. */
module Wrappers {

  /** Either no value (`None` in the source) or exactly one. */
  datatype Option<+T> = None | Some(value: T)
}
